=== FILE: README.md ===
# mongoose-csv in Dafny

A model of the mongoose-csv plugin (`index.js`). The plugin adds CSV export to a mongoose schema. It has four parts:

- **Column discovery** (`find_props`). It takes the schema's ordered path list. It drops `_id` and `id`, drops paths that opt out with `csv: false` on their tree node or on the node's `options`, and drops `Array`, `Object` and `Mixed` instances. Then it appends `_id` as the last column.
- **Row rendering** (`array_to_row`, `prop_to_csv`). Each value goes through `String()`. The result is blanked when it is empty or `'undefined'`. Fields are joined with `;` and the line ends with `\n`. Nothing is quoted.
- **The `csv_header` static.** It applies an include-only filter, then the schema-level `replaceHeaderNames` map, then the call-level rename map, and renders the header line.
- **The `toCSV` document method.** It applies an include-only filter to the prop list and looks each prop up, by dotted path, in the document's JSON snapshot.

`props` and `headers` are computed once, when the plugin is installed on a schema. After that every call reassigns or mutates them in place. The model therefore threads an explicit `Plugin.State` through `Plugin.CsvHeader` and `Plugin.ToCsv`. Each call returns the next state together with its line.

Modules:

| file | module | contents |
|---|---|---|
| wrappers.dfy | Wrappers | `Option` |
| seqs.dfy | Seqs | subsequence relation, `Where` (array `filter`), `MapSeq` (array `map`) |
| text.dfy | Text | JavaScript `join`/`split` with a one-character separator, and both round trips |
| discovery.dfy | Discovery | schema path records, the four filter stages, `FindProps` |
| json.dfy | Json | document snapshot values, lodash `_.get` |
| row.dfy | Row | `String()`, `prop_to_csv`, `array_to_row`, header rows |
| plugin.dfy | Plugin | closure state, include-only filter, renaming, `csv_header`, `toCSV`, the corrected header call |
| scenarios.dfy | Scenarios | concrete exports on a small person schema, including the two failing call sequences |

Helpers without a contract of their own mirror these source lines and reach the table through their callers: `Plugin.Rename` is the loop of index.js:35-39 and 45-49, `Plugin.DisplayNames` the two rename steps of index.js:32-50 in order, `Plugin.Lookups` the `props.map(_.get)` of index.js:64-66, `Row.Rendered` the `arr.map(prop_to_csv)` of index.js:129, and `Row.HeaderRow` the `array_to_row(headers)` of index.js:51.

The inputs are modelled abstractly:

- A schema is a sequence of `SchemaPath` records in `schema.paths` key order. Each record holds the name, the tree node's `csv` flag, the node's `options` with their own `csv` flag, and the `instance` tag.
- A document snapshot is a `Json.Value`: `Undefined`, `Null`, `Text` (leaves that are already strings) or `Obj` (a map of named children).

In these places the code does something other than what a reader of the plugin might expect, and the model follows the code:

- Internal bookkeeping fields such as mongoose's `__v` are not removed. An unflagged `__v` path is exported (`Discovery.VersionKeyExported`).
- The column lists are not re-derived per call. They are computed at install time (index.js:22-23) and narrowed and renamed in place by later calls.
- The call-level rename does not simply win over the schema-level one. It is looked up on the text the schema-level map already produced (`Plugin.CsvHeader`).
- A header include list is matched against the stored header text. After a rename, that text is the renamed one, not the original column name.
- The comment on `prop_to_csv` speaks of escaping quotes, but nothing is escaped. The literal text `undefined` blanks out just like an undefined value.

## Model

| member | source | states |
|---|---|---|
| Discovery.FindProps | index.js:90-124 | the list ends with `_id`; no earlier entry is `_id` or `id`; each earlier entry names a path that passes every stage; every passing path's name is listed; an empty schema yields `["_id"]` |
| Discovery.Kept | index.js:92-115 | the filter chain keeps exactly the paths that are not identifiers, whose node `csv` and `options.csv` are absent or true, and whose instance is not Array/Object/Mixed; it keeps them in schema order |
| Discovery.FindPropsKeepsOrder | index.js:92-118 | the names before the final `_id` are an order-preserving subsequence of the schema's path names |
| Discovery.FindPropsDistinct | index.js:92-121 | when path names are distinct (they are object keys), no column is listed twice |
| Discovery.OptedOutNeverListed | index.js:98-115 | a path rejected by any stage never names a column before the final `_id` |
| Discovery.VersionKeyExported | index.js:92-121 | nothing removes an unflagged `__v` path, so it is exported |
| Seqs.Where | index.js:98-115 | filtering keeps exactly the elements that pass, as an order-preserving subsequence |
| Row.Str | index.js:135 | `String()` gives `undefined` exactly for an undefined value and the text `undefined`, gives the empty text only for empty text, and returns text unchanged |
| Row.PropToCsv | index.js:133-139 | the result is empty exactly when `String(value)` is empty or `'undefined'`; otherwise it is that text unchanged; it is never `'undefined'` |
| Row.PropToCsvLeaves | index.js:133-139 | `undefined` and the text `undefined` blank out, `null` renders as `null`, other non-empty text is returned unquoted |
| Row.ArrayToRow | index.js:128-130 | every line, even one with no fields, ends with `\n` |
| Row.RowRoundTrip | index.js:128-130 | when at least one field is present and no rendered field contains `;`, splitting the line (without its `\n`) on `;` gives back the rendered fields |
| Row.RowSingleNewline | index.js:128-130 | when no rendered field contains `\n`, the final `\n` is the only newline in the line |
| Row.EmptyRowAmbiguous | index.js:128-130 | no fields and one blank field render the same line, `\n` |
| Row.DelimiterInFieldAmbiguous | index.js:128-139 | without quoting, a field `x;y` renders like the two fields `x` and `y` when neither part is empty or `undefined` |
| Text.Join | index.js:129 | no parts join to the empty text, one part to itself, and more parts to text that starts with the first part and a separator; `Text.SplitJoin` inverts it |
| Text.SplitJoin | index.js:129 | joining with `;` and splitting again returns the parts when there is at least one part and none contains `;` |
| Text.JoinSplit | index.js:129 | splitting any text and joining it again returns the text |
| Json.Get | index.js:65 | a key that is a literal property of the document reads that property; a snapshot that is not an object, or a key with no non-empty dot-separated piece, reads `undefined` |
| Json.PathKeys | index.js:65 | the property names walked are the non-empty pieces between dots, in order, each as often as it occurs in the key; empty pieces are dropped |
| Json.PathKeysNonEmpty | index.js:65 | a key holding any character other than `.` yields at least one property name to read |
| Json.GetSkipsEmptyPieces | index.js:65 | `a.` and `.a` read the same property as `a` when neither is a literal property |
| Json.GetPath | index.js:65 | walking through a value that is not an object yields `undefined` |
| Json.GetPlain | index.js:65 | a key without `.` is one property read, and `undefined` when the property is missing (the empty key included) |
| Json.GetNested | index.js:65 | for non-empty dot-free `a` and `b`, when the whole key `a.b` is not itself a property of the document, `a.b` reads `b` inside the object stored under `a`, and is `undefined` if either step is missing |
| Json.GetMissingIntermediate | index.js:65 | when the whole dotted key is not itself a property of the document, its first piece is missing or is not an object, and the rest of the key holds any character other than `.` (so a further piece follows), the lookup is `undefined` |
| Plugin.Install | index.js:22-23 | both closure lists start as the same discovered column list, ending with `_id` |
| Plugin.IncludeOnly | index.js:26-30 | a defined, non-empty include list keeps exactly the members, in order and with their multiplicity; otherwise the list is unchanged |
| Plugin.IncludeOnlyIdempotent | index.js:58-62 | applying the same include list a second time changes nothing |
| Plugin.IncludeOnlyCommutes | index.js:58-62 | two successive include lists give the same result in either order |
| Plugin.NarrowingPersists | index.js:58-62 | a narrowing `toCSV` call replaces the stored props, so a later call without an include list keeps the narrowed list |
| Plugin.NarrowingAccumulates | index.js:58-62 | successive narrowings intersect, and the result does not depend on their order |
| Plugin.RenameInPlace | index.js:35-39 | the backward in-place loop preserves length, leaves non-key entries alone, and replaces each key entry with its mapped text, each entry once |
| Plugin.CsvHeader | index.js:25-52 | the prop list is untouched; the stored headers are as many as the include filter keeps; each kept entry `h` becomes: `h` when neither map has it; the call-level name when only that map has it; the schema-level name when only the schema-level map has it or that name is not a call-level key; and the call-level name of the schema-level name when it is; whichever maps are passed; the line renders exactly the stored header list |
| Plugin.RenamesPersist | index.js:37 | renamed text is stored, and a later call applies the schema-level map again to the already-renamed headers |
| Plugin.RenameStable | index.js:35-39 | a map none of whose values is a key renames nothing a second time |
| Plugin.HeaderRepeatStable | index.js:25-52 | after a header call without a call-level map, a second call with no include list and no call-level map returns the same line, provided no schema-level value is itself a schema-level key; it does not cover a second call with the same include list, whose line can change (first finding below) |
| Plugin.ToCsv | index.js:54-67 | the header list is untouched; the stored props become the filtered props; the line ends with `\n` |
| Plugin.ToCsvFields | index.js:64-66 | when the filtered prop list is non-empty and no rendered value contains `;`, splitting the row on `;` gives one field per stored prop, in order, each the `prop_to_csv` of that prop's `_.get` lookup |
| Plugin.MissingFieldBlank | index.js:64-66 | a prop whose lookup is missing renders as an empty field, not as `undefined` |
| Plugin.ListsIndependent | index.js:25-67 | header calls never change the prop list and row calls never change the header list |
| Plugin.CsvHeaderFixed | index.js:25-52 | corrected header call: from the same state it renders the same line as the original call, but it stores only the narrowed column names, never a display name; the prop list is untouched |
| Plugin.FixedHeaderAligned | index.js:25-67 | with the corrected call, header and props stay equal after a header call and a row call with the same include list, and the header has one name per row field |
| Plugin.FixedHeaderStable | index.js:25-52 | with the corrected call, repeating a header call with the same arguments repeats its line |
| Scenarios.PersonColumns | index.js:90-124 | the schema `name: String, age: Number, _id: ObjectID` yields the columns `name, age, _id` |
| Scenarios.PlainHeader | index.js:25-52 | that schema's header line is `name;age;_id\n` |
| Scenarios.PlainRow | index.js:54-67 | the document `{name: Ann, age: 30, _id: x1}` renders as `Ann;30;x1\n` |
| Scenarios.RenamedHeader | index.js:32-51 | the schema-level `{age: "Age (years)"}` and call-level `{name: "Full Name"}` give `Full Name;Age (years);_id\n` |
| Scenarios.RenamedRow | index.js:54-67 | renaming the header leaves the row `Ann;30;x1\n` unchanged |
| Scenarios.FirstExport | index.js:25-67 | one export with include list `["name"]` and the schema-level rename stores the header `Full Name` and the prop `name` |
| Scenarios.RenamedColumnDroppedOnSecondExport | index.js:26-37 | a second such export renders an empty header line while the row still has its field |
| Scenarios.RenamedColumnKeptWhenFixed | index.js:25-67 | with the corrected header call, both exports render the header `Full Name` |
| Scenarios.ChainedRenameDrifts | index.js:32-39 | with the schema-level map `{name: Name, Name: Full Name}`, the first header call shows `Name` and the second shows `Full Name` |

## Left out

- Module loading through `require('mongoose')` and `parent-require`, and the `mongoose.Promise` assignment (index.js:8-17). These are environment set-up and compute nothing.
- `mongoose.Query.prototype.csv` (index.js:69-85). It is asynchronous stream I/O over a query cursor, plus a one-time patch of a global prototype. Its header-then-rows sequence is represented by the call pairs in `Scenarios`.
- `doc.toJSON(...)` (index.js:56) and mongoose's `schema.paths`, `schema.tree` and `path.instance`. These are foreign calls. They are supplied as inputs: `SchemaPath` records and a `Json.Value` snapshot.
- The `TypeError` that `find_props` raises when a path has no tree node (index.js:95, 99). Every `SchemaPath` carries its node fields, so the type excludes that case.
- JavaScript `String()` of numbers, dates and ObjectIds. Leaves are already-stringified `Text`. Only `undefined`, `null` and plain objects (`[object Object]`) are converted by `Row.Str`.
- JavaScript truthiness of arbitrary flag values. The `csv` flags are `Option<bool>`, and a falsy `options` object or `replaceHeaderNames` map counts as absent. A `null` include list or rename map, which would throw in the source, is not modelled.
- Json.Get: follows lodash 3, which this code needs for `.pluck`. Bracket and quoted-key path syntax, inherited properties in the literal-key test, and property reads on primitive strings (such as `.length`) are not modelled. Any step through a non-object gives `undefined`.
- Rename map values are strings. A non-string value in a rename map, which `String()` would stringify when rendered, is not modelled.

## Findings

| source | as written | input that shows it | evidently intended | confidence | as-written member | corrected member |
|---|---|---|---|---|---|---|
| index.js:26-37 | `csv_header` stores the renamed headers and later matches include lists against them, while `toCSV` matches against column names | schema `name, age, _id`, plugin option `replaceHeaderNames: {name: "Full Name"}`, two exports with include list `["name"]`: the second header line is `\n` while every row is `Ann\n` | the include list selects columns by their original names and renames affect only the rendered header, so header and rows stay aligned | medium, not executed | Scenarios.RenamedColumnDroppedOnSecondExport | Plugin.FixedHeaderAligned |
| index.js:35-39 | the schema-level rename is applied again on every call to the already-renamed headers | `replaceHeaderNames: {name: "Name", Name: "Full Name"}`: the first header shows `Name`, the second `Full Name` | the same header call renders the same line every time | medium, not executed | Scenarios.ChainedRenameDrifts | Plugin.FixedHeaderStable |

`Plugin.CsvHeader` stays the faithful model of the code. `Plugin.CsvHeaderFixed` is the corrected definition. It narrows the stored list like the original, but it applies `DisplayNames` only to the line it renders. `Scenarios.RenamedColumnKeptWhenFixed` replays the first finding's input against the corrected definition.

=== FILE: discovery.dfy ===
/**
 Column discovery (`find_props` in index.js): turns a schema's ordered path list
 into the list of exported columns, identifier last.
 */
module Discovery {
  import opened Wrappers
  import opened Seqs

  /** The `options` object hanging off a schema tree node, with its optional `csv` flag. */
  datatype PathOptions = PathOptions(csv: Option<bool>)

  /**
   One key of `schema.paths`, together with what the plugin reads about it: the
   `csv` flag and `options` of its node in `schema.tree`, and the path's
   `instance` tag (`String`, `Number`, `Array`, `Mixed`, ...).
   */
  datatype SchemaPath = SchemaPath(
    name: string,
    csv: Option<bool>,
    options: Option<PathOptions>,
    instance: string)

  const Id: string := "_id"
  const IdAlias: string := "id"

  /** A `csv` flag keeps the path when it is absent or true. */
  predicate FlagAllows(flag: Option<bool>) {
    flag.None? || flag.value
  }

  /** First stage: `_.without('_id', 'id')`. */
  predicate NotId(p: SchemaPath) {
    p.name != Id && p.name != IdAlias
  }

  /** Second stage: the tree node's own `csv` flag. */
  predicate NodeAllows(p: SchemaPath) {
    FlagAllows(p.csv)
  }

  /** Third stage: the node's `options.csv`, consulted only when `options` exists. */
  predicate OptionsAllow(p: SchemaPath) {
    p.options.None? || FlagAllows(p.options.value.csv)
  }

  /** Fourth stage: collection, nested-object and free-form paths are not exported. */
  predicate Scalar(p: SchemaPath) {
    p.instance != "Array" && p.instance != "Object" && p.instance != "Mixed"
  }

  /** A path that survives all four stages. */
  predicate Exported(p: SchemaPath) {
    NotId(p) && NodeAllows(p) && OptionsAllow(p) && Scalar(p)
  }

  /** `n` is the name of some path that survives discovery. */
  predicate ExportedName(paths: seq<SchemaPath>, n: string) {
    exists p :: p in paths && p.name == n && Exported(p)
  }

  /** `.pluck('name')` on one record, as a named function so that `Names` and its lemmas share it. */
  function NameOf(p: SchemaPath): string {
    p.name
  }

  /** `.pluck('name')`: the names of the records, in order. */
  function Names(paths: seq<SchemaPath>): (names: seq<string>)
    ensures |names| == |paths|
    ensures forall i :: 0 <= i < |paths| ==> names[i] == paths[i].name
  {
    MapSeq(paths, NameOf)
  }

  /** The four filter stages of the chain, applied in the source's order. */
  function Kept(paths: seq<SchemaPath>): (kept: seq<SchemaPath>)
    ensures SubseqOf(kept, paths)
    ensures forall p :: p in kept <==> p in paths && Exported(p)
  {
    var s1 := Where(paths, NotId);
    var s2 := Where(s1, NodeAllows);
    var s3 := Where(s2, OptionsAllow);
    var s4 := Where(s3, Scalar);
    SubseqTrans(s4, s3, s2);
    SubseqTrans(s4, s2, s1);
    SubseqTrans(s4, s1, paths);
    s4
  }

  /**
   The filter chain followed by `pluck('name')` and `push('_id')`: the surviving
   names in schema order, then the identifier.
   */
  function FindProps(paths: seq<SchemaPath>): (props: seq<string>)
    ensures |props| >= 1 && props[|props| - 1] == Id
    ensures forall i :: 0 <= i < |props| - 1 ==> props[i] != Id && props[i] != IdAlias
    ensures forall i :: 0 <= i < |props| - 1 ==> ExportedName(paths, props[i])
    ensures forall p :: p in paths && Exported(p) ==> p.name in props
    ensures |paths| == 0 ==> props == [Id]
  {
    var kept := Kept(paths);
    var body := Names(kept);
    forall i | 0 <= i < |body|
      ensures body[i] != Id && body[i] != IdAlias && ExportedName(paths, body[i])
    {
      assert kept[i] in kept;
      SurvivorNamed(paths, kept[i]);
    }
    forall p | p in paths && Exported(p) ensures p.name in body {
      NameListed(kept, p);
    }
    body + [Id]
  }

  lemma SurvivorNamed(paths: seq<SchemaPath>, p: SchemaPath)
    requires p in paths && Exported(p)
    ensures ExportedName(paths, p.name)
  {
  }

  lemma NameListed(paths: seq<SchemaPath>, p: SchemaPath)
    requires p in paths
    ensures p.name in Names(paths)
  {
    var i :| 0 <= i < |paths| && paths[i] == p;
    assert Names(paths)[i] == p.name;
  }

  /** The names before the final identifier keep the schema's order: filtering never reorders or duplicates. */
  lemma FindPropsKeepsOrder(paths: seq<SchemaPath>)
    ensures SubseqOf(FindProps(paths)[..|FindProps(paths)| - 1], Names(paths))
  {
    var kept := Kept(paths);
    SubseqMap(kept, paths, NameOf);
    assert FindProps(paths)[..|FindProps(paths)| - 1] == Names(kept);
  }

  /** Schema path names are object keys, hence distinct; then no column is listed twice. */
  lemma FindPropsDistinct(paths: seq<SchemaPath>)
    requires Distinct(Names(paths))
    ensures Distinct(FindProps(paths))
  {
    var props := FindProps(paths);
    var body := props[..|props| - 1];
    FindPropsKeepsOrder(paths);
    SubseqDistinct(body, Names(paths));
    assert props == body + [Id];
    forall i, j | 0 <= i < j < |props| ensures props[i] != props[j] {
      if j == |props| - 1 {
        assert props[i] != Id;
      } else {
        assert props[i] == body[i] && props[j] == body[j];
      }
    }
  }

  /**
   With distinct path names, a path that fails any stage (an identifier, a
   `csv: false` on its node or its options, a collection or free-form instance)
   never names a column before the final identifier.
   */
  lemma OptedOutNeverListed(paths: seq<SchemaPath>, p: SchemaPath)
    requires Distinct(Names(paths))
    requires p in paths && !Exported(p)
    ensures p.name !in FindProps(paths)[..|FindProps(paths)| - 1]
  {
    var props := FindProps(paths);
    forall i | 0 <= i < |props| - 1 ensures props[i] != p.name {
      var q :| q in paths && q.name == props[i] && Exported(q);
      var j :| 0 <= j < |paths| && paths[j] == p;
      var k :| 0 <= k < |paths| && paths[k] == q;
      assert Names(paths)[j] == p.name && Names(paths)[k] == q.name;
    }
  }

  /** Mongoose's version key is not special-cased: an unflagged `__v` path is exported. */
  lemma VersionKeyExported(paths: seq<SchemaPath>)
    requires SchemaPath("__v", None, None, "Number") in paths
    ensures "__v" in FindProps(paths)
  {
    SurvivorNamed(paths, SchemaPath("__v", None, None, "Number"));
  }
}

=== FILE: json.dfy ===
/**
 The document snapshot produced by `doc.toJSON(...)`, and lodash's `_.get`
 lookup of a column path in it.
 */
module Json {
  import opened Seqs
  import opened Text

  /**
   A JSON-like value. Leaves are already-stringified text (numbers, dates and
   object ids included), `null`, or `undefined`; inner nodes are objects.
   */
  datatype Value =
    | Undefined
    | Null
    | Text(s: string)
    | Obj(fields: map<string, Value>)

  /** Walks `keys` through nested objects; any step that is not an object property gives `undefined`. */
  function GetPath(v: Value, keys: seq<string>): (r: Value)
    ensures |keys| > 0 && !v.Obj? ==> r == Undefined
    decreases keys
  {
    if |keys| == 0 then v
    else match v
      case Obj(m) => if keys[0] in m then GetPath(m[keys[0]], keys[1..]) else Undefined
      case _ => Undefined
  }

  /**
   The property names lodash 3's `toPath` reads off a plain key: the non-empty
   pieces between dots (`"a..b."` gives `["a", "b"]`).
   */
  function PathKeys(key: string): (keys: seq<string>)
    ensures forall k :: k in keys <==> k in Split(key, '.') && k != ""
    ensures SubseqOf(keys, Split(key, '.'))
    ensures forall k :: k in Split(key, '.') ==>
      multiset(keys)[k] == if k != "" then multiset(Split(key, '.'))[k] else 0
  {
    WhereCounts(Split(key, '.'), k => k != "");
    Where(Split(key, '.'), k => k != "")
  }

  /**
   `_.get(doc, key)` in lodash 3: a key that is literally a property of the
   document is read directly; otherwise the key's non-empty dot-separated pieces
   are walked, and a key with no such piece reads nothing.
   */
  function Get(doc: Value, key: string): (r: Value)
    ensures doc.Obj? && key in doc.fields ==> r == doc.fields[key]
    ensures !doc.Obj? ==> r == Undefined
    ensures !(doc.Obj? && key in doc.fields) && PathKeys(key) == [] ==> r == Undefined
  {
    if doc.Obj? && key in doc.fields then doc.fields[key]
    else
      var keys := PathKeys(key);
      if |keys| == 0 then Undefined else GetPath(doc, keys)
  }

  /** A leading non-empty, dot-free piece is the first property name read. */
  lemma {:induction false} PathKeysCons(a: string, rest: string)
    requires a != "" && '.' !in a
    ensures PathKeys(a + "." + rest) == [a] + PathKeys(rest)
  {
    SplitAtSep(a, rest, '.');
    assert a + "." + rest == a + ['.'] + rest;
    var pieces := Split(a + "." + rest, '.');
    assert pieces[0] == a && pieces[1..] == Split(rest, '.');
  }

  /** A non-empty, dot-free key names exactly one property. */
  lemma {:induction false} PathKeysSingle(a: string)
    requires a != "" && '.' !in a
    ensures PathKeys(a) == [a]
  {
    SplitNoSep(a, '.');
    assert Split(a, '.')[1..] == [];
  }

  /** A dot-free key is a single property read. */
  lemma {:induction false} GetPlain(doc: Value, key: string)
    requires '.' !in key
    ensures Get(doc, key) == if doc.Obj? && key in doc.fields then doc.fields[key] else Undefined
  {
    if key != "" {
      PathKeysSingle(key);
      assert GetPath(doc, [key]) == if doc.Obj? && key in doc.fields then doc.fields[key] else Undefined;
    } else {
      SplitNoSep(key, '.');
      assert PathKeys(key) == [];
    }
  }

  /** `a.b` descends into the object stored under `a`. */
  lemma {:induction false} GetNested(doc: Value, a: string, b: string)
    requires a != "" && b != "" && '.' !in a && '.' !in b
    requires doc.Obj? && a + "." + b !in doc.fields
    ensures Get(doc, a + "." + b) ==
      if a in doc.fields && doc.fields[a].Obj? && b in doc.fields[a].fields
      then doc.fields[a].fields[b] else Undefined
  {
    PathKeysCons(a, b);
    PathKeysSingle(b);
    var keys := PathKeys(a + "." + b);
    assert keys == [a, b];
    if a in doc.fields {
      assert keys[1..] == [b];
      assert GetPath(doc, keys) == GetPath(doc.fields[a], [b]);
      if doc.fields[a].Obj? && b in doc.fields[a].fields {
        assert GetPath(doc.fields[a], [b]) == GetPath(doc.fields[a].fields[b], []);
      }
    }
  }

  /**
   Empty pieces are skipped: with no literal property of that name, `a.` and
   `.a` both read `a`.
   */
  lemma {:induction false} GetSkipsEmptyPieces(doc: Value, a: string)
    requires a != "" && '.' !in a
    requires doc.Obj? && a + "." !in doc.fields && "." + a !in doc.fields
    ensures Get(doc, a + ".") == Get(doc, a)
    ensures Get(doc, "." + a) == Get(doc, a)
  {
    GetPlain(doc, a);
    PathKeysCons(a, "");
    SplitNoSep("", '.');
    assert PathKeys("") == [];
    assert a + "." + "" == a + ".";
    PathKeysSingle(a);
    assert GetPath(doc, [a]) == Get(doc, a);
    SplitAtSep("", a, '.');
    assert "" + ['.'] + a == "." + a;
    SplitNoSep(a, '.');
    var pieces := Split("." + a, '.');
    assert pieces == ["", a];
    assert pieces[1..] == [a];
    assert PathKeys("." + a) == [a];
  }

  /** Text holding any character other than `.` has a non-empty piece, so a property name to read. */
  lemma {:induction false} PathKeysNonEmpty(rest: string, i: nat)
    requires i < |rest| && rest[i] != '.'
    ensures PathKeys(rest) != []
    decreases |rest|
  {
    var pieces := Split(rest, '.');
    if rest[0] == '.' {
      PathKeysNonEmpty(rest[1..], i - 1);
      var k := PathKeys(rest[1..])[0];
      assert k in Split(rest[1..], '.') && k != "";
      assert pieces == [""] + Split(rest[1..], '.');
      assert k in pieces;
    } else {
      assert pieces[0] != "";
    }
  }

  /** A missing or non-object first step makes every deeper key `undefined`. */
  lemma {:induction false} GetMissingIntermediate(doc: Value, a: string, rest: string, i: nat)
    requires a != "" && '.' !in a && i < |rest| && rest[i] != '.'
    requires doc.Obj? && a + "." + rest !in doc.fields
    requires a !in doc.fields || !doc.fields[a].Obj?
    ensures Get(doc, a + "." + rest) == Undefined
  {
    PathKeysNonEmpty(rest, i);
    PathKeysCons(a, rest);
    var keys := PathKeys(a + "." + rest);
    assert keys[0] == a && keys[1..] == PathKeys(rest);
  }
}

=== FILE: plugin.dfy ===
/**
 The plugin body in index.js: the per-schema closure state `props`/`headers`,
 the `csv_header` static and the `toCSV` document method. Both calls reassign
 or mutate the closure lists, so the plugin is a small state machine: each call
 takes the current `State` and returns the next one together with its line.
 */
module Plugin {
  import opened Wrappers
  import opened Seqs
  import opened Text
  import opened Json
  import opened Discovery
  import opened Row

  /** A rename map, as a JavaScript object from column text to display text. */
  type Renames = map<string, string>

  /** The plugin's `options` argument; `replaceHeaderNames` is `None` when absent or falsy. */
  datatype PluginOptions = PluginOptions(replaceHeaderNames: Option<Renames>)

  /** The closure variables of one schema's plugin instance. */
  datatype State = State(props: seq<string>, headers: seq<string>)

  /** The next state and the text line a call returns. */
  datatype Reply = Reply(state: State, line: string)

  /** Installing the plugin: both lists start as the discovered column list. */
  function Install(paths: seq<SchemaPath>): (st: State)
    ensures st.props == st.headers
    ensures |st.props| >= 1 && st.props[|st.props| - 1] == Id
    ensures forall p :: p in paths && Exported(p) ==> p.name in st.props
  {
    var cols := FindProps(paths);
    State(cols, cols)
  }

  // ---------------------------------------------------------------------------
  // Include-only filtering
  // ---------------------------------------------------------------------------

  /** `includeOnly` takes effect only when it is defined and non-empty. */
  predicate Active(includeOnly: Option<seq<string>>) {
    includeOnly.Some? && |includeOnly.value| > 0
  }

  /** The entries of `list` that occur in `keep` (`keep.indexOf(x) > -1`). */
  function Narrow(list: seq<string>, keep: seq<string>): seq<string> {
    Where(list, x => x in keep)
  }

  /**
   The filter of index.js:26-30 and 58-62: an active include list keeps exactly
   the members, in order and with their multiplicity; otherwise nothing changes.
   */
  function IncludeOnly(list: seq<string>, includeOnly: Option<seq<string>>): (r: seq<string>)
    ensures !Active(includeOnly) ==> r == list
    ensures Active(includeOnly) ==>
      && SubseqOf(r, list)
      && (forall x :: x in r <==> x in list && x in includeOnly.value)
      && (forall x :: x in list ==> multiset(r)[x] == if x in includeOnly.value then multiset(list)[x] else 0)
  {
    if Active(includeOnly) then
      WhereCounts(list, x => x in includeOnly.value);
      Narrow(list, includeOnly.value)
    else list
  }

  lemma {:induction false} NarrowCons(list: seq<string>, keep: seq<string>)
    requires |list| > 0
    ensures Narrow(list, keep) == (if list[0] in keep then [list[0]] else []) + Narrow(list[1..], keep)
  {
  }

  lemma {:induction false} NarrowAppend(a: seq<string>, b: seq<string>, keep: seq<string>)
    ensures Narrow(a + b, keep) == Narrow(a, keep) + Narrow(b, keep)
    decreases |a|
  {
    if |a| > 0 {
      var head := if a[0] in keep then [a[0]] else [];
      NarrowCons(a + b, keep);
      NarrowCons(a, keep);
      assert (a + b)[1..] == a[1..] + b;
      NarrowAppend(a[1..], b, keep);
      calc {
        Narrow(a + b, keep);
        head + Narrow(a[1..] + b, keep);
        head + (Narrow(a[1..], keep) + Narrow(b, keep));
        (head + Narrow(a[1..], keep)) + Narrow(b, keep);
        Narrow(a, keep) + Narrow(b, keep);
      }
    } else {
      assert a + b == b;
    }
  }

  /** Two narrowing calls give the same list in either order. */
  lemma {:induction false} NarrowCommutes(list: seq<string>, a: seq<string>, b: seq<string>)
    ensures Narrow(Narrow(list, a), b) == Narrow(Narrow(list, b), a)
    decreases |list|
  {
    if |list| > 0 {
      var h := list[0];
      NarrowCons(list, a);
      NarrowCons(list, b);
      NarrowAppend(if h in a then [h] else [], Narrow(list[1..], a), b);
      NarrowAppend(if h in b then [h] else [], Narrow(list[1..], b), a);
      NarrowCommutes(list[1..], a, b);
      if h in a {
        NarrowCons([h], b);
        assert Narrow([h], b) == (if h in b then [h] else []);
      }
      if h in b {
        NarrowCons([h], a);
        assert Narrow([h], a) == (if h in a then [h] else []);
      }
    }
  }

  /** Narrowing a list whose entries all pass changes nothing. */
  lemma {:induction false} NarrowKeepsAll(list: seq<string>, keep: seq<string>)
    requires forall x :: x in list ==> x in keep
    ensures Narrow(list, keep) == list
    decreases |list|
  {
    if |list| > 0 {
      NarrowCons(list, keep);
      NarrowKeepsAll(list[1..], keep);
      assert list == [list[0]] + list[1..];
    }
  }

  /** Repeating an include-only filter changes nothing further. */
  lemma IncludeOnlyIdempotent(list: seq<string>, includeOnly: Option<seq<string>>)
    ensures IncludeOnly(IncludeOnly(list, includeOnly), includeOnly) == IncludeOnly(list, includeOnly)
  {
    if Active(includeOnly) {
      NarrowKeepsAll(Narrow(list, includeOnly.value), includeOnly.value);
    }
  }

  /** Successive include-only filters intersect, whichever comes first. */
  lemma IncludeOnlyCommutes(list: seq<string>, a: Option<seq<string>>, b: Option<seq<string>>)
    ensures IncludeOnly(IncludeOnly(list, a), b) == IncludeOnly(IncludeOnly(list, b), a)
  {
    if Active(a) && Active(b) {
      NarrowCommutes(list, a.value, b.value);
    }
  }

  // ---------------------------------------------------------------------------
  // Header renaming
  // ---------------------------------------------------------------------------

  /** One entry after a rename map: its mapped text when it is a key, itself otherwise. */
  function Renamed(h: string, m: Renames): string {
    if h in m then m[h] else h
  }

  /** Every entry renamed independently, each looked up once. */
  function Rename(headers: seq<string>, m: Renames): seq<string> {
    MapSeq(headers, h => Renamed(h, m))
  }

  /**
   The in-place loop of index.js:35-39 (and 45-49), which walks the headers from
   the last index down to 0 and overwrites each entry that is a key of the map.
   */
  method RenameInPlace(headers: seq<string>, m: Renames) returns (out: seq<string>)
    ensures |out| == |headers|
    ensures forall i :: 0 <= i < |headers| && headers[i] !in m ==> out[i] == headers[i]
    ensures forall i :: 0 <= i < |headers| && headers[i] in m ==> out[i] == m[headers[i]]
    ensures out == Rename(headers, m)
  {
    out := headers;
    var i := |headers| - 1;
    while i >= 0
      invariant -1 <= i < |headers|
      invariant |out| == |headers|
      invariant forall j :: 0 <= j <= i ==> out[j] == headers[j]
      invariant forall j :: i < j < |headers| ==> out[j] == Renamed(headers[j], m)
      decreases i
    {
      if out[i] in m {
        out := out[i := m[out[i]]];
      }
      i := i - 1;
    }
  }

  /** `h` is not a key of the map, or there is no map. */
  predicate Untouched(h: string, m: Option<Renames>) {
    m.None? || h !in m.value
  }

  /** Whether the two maps of index.js:32 and index.js:42 take effect. */
  function SchemaRenames(options: Option<PluginOptions>): Option<Renames> {
    if options.Some? then options.value.replaceHeaderNames else None
  }

  function ApplySchemaRenames(headers: seq<string>, options: Option<PluginOptions>): seq<string> {
    var m := SchemaRenames(options);
    if m.Some? then Rename(headers, m.value) else headers
  }

  function ApplyCallRenames(headers: seq<string>, extra: Option<Renames>): seq<string> {
    if extra.Some? && |extra.value| > 0 then Rename(headers, extra.value) else headers
  }

  /** The display names of a list of columns: schema-level renames, then call-level renames. */
  function DisplayNames(columns: seq<string>, options: Option<PluginOptions>, extra: Option<Renames>): seq<string> {
    ApplyCallRenames(ApplySchemaRenames(columns, options), extra)
  }

  // ---------------------------------------------------------------------------
  // csv_header and toCSV
  // ---------------------------------------------------------------------------

  /**
   `csv_header(includeOnly, additonalHeaderReplacements)`: narrows the stored
   headers, renames them with the schema-level map and then with the call-level
   map, stores the result and renders it. The prop list is left alone.
   */
  function CsvHeader(st: State, options: Option<PluginOptions>, includeOnly: Option<seq<string>>,
                     extra: Option<Renames>): (r: Reply)
    ensures r.state.props == st.props
    ensures |r.state.headers| == |IncludeOnly(st.headers, includeOnly)|
    ensures forall i :: 0 <= i < |r.state.headers| ==>
      var h := IncludeOnly(st.headers, includeOnly)[i];
      var s := SchemaRenames(options);
      var out := r.state.headers[i];
      && (Untouched(h, s) && Untouched(h, extra) ==> out == h)
      && (Untouched(h, s) && extra.Some? && h in extra.value ==> out == extra.value[h])
      && (s.Some? && h in s.value && Untouched(s.value[h], extra) ==> out == s.value[h])
      && (s.Some? && h in s.value && extra.Some? && s.value[h] in extra.value ==> out == extra.value[s.value[h]])
    ensures r.line == HeaderRow(r.state.headers)
  {
    var narrowed := IncludeOnly(st.headers, includeOnly);
    var headers := DisplayNames(narrowed, options, extra);
    Reply(State(st.props, headers), HeaderRow(headers))
  }

  /**
   `toCSV(includeOnly)` on a document: narrows the stored props, then renders
   one field per stored prop, looked up with `_.get` in the document snapshot.
   */
  function ToCsv(st: State, includeOnly: Option<seq<string>>, doc: Value): (r: Reply)
    ensures r.state.headers == st.headers
    ensures r.state.props == IncludeOnly(st.props, includeOnly)
    ensures |r.line| >= 1 && r.line[|r.line| - 1] == Newline
  {
    var props := IncludeOnly(st.props, includeOnly);
    Reply(State(props, st.headers), ArrayToRow(Lookups(doc, props)))
  }

  /** The value of every prop in the document, in prop order. */
  function Lookups(doc: Value, props: seq<string>): seq<Value> {
    MapSeq(props, key => Get(doc, key))
  }

  // ---------------------------------------------------------------------------
  // Properties of the calls
  // ---------------------------------------------------------------------------

  /** Calls with no arguments re-apply the schema-level map to the already-renamed headers. */
  lemma RenamesPersist(st: State, options: Option<PluginOptions>, includeOnly: Option<seq<string>>,
                       extra: Option<Renames>)
    ensures var first := CsvHeader(st, options, includeOnly, extra).state;
            CsvHeader(first, options, None, None).state.headers == ApplySchemaRenames(first.headers, options)
  {
  }

  /** A map none of whose values is again a key renames nothing a second time. */
  lemma {:induction false} RenameStable(headers: seq<string>, m: Renames)
    requires forall k :: k in m ==> m[k] !in m
    ensures Rename(Rename(headers, m), m) == Rename(headers, m)
  {
    var once := Rename(headers, m);
    forall i | 0 <= i < |headers| ensures Rename(once, m)[i] == once[i] {
      assert once[i] == Renamed(headers[i], m);
      if headers[i] in m {
        assert m[headers[i]] !in m;
      }
    }
  }

  /**
   Without chained schema-level renames and with no new call arguments, a second
   header call returns the same line as the first.
   */
  lemma HeaderRepeatStable(st: State, options: Option<PluginOptions>, includeOnly: Option<seq<string>>)
    requires SchemaRenames(options).Some? ==>
      forall k :: k in SchemaRenames(options).value ==> SchemaRenames(options).value[k] !in SchemaRenames(options).value
    ensures var first := CsvHeader(st, options, includeOnly, None);
            CsvHeader(first.state, options, None, None).line == first.line
  {
    var first := CsvHeader(st, options, includeOnly, None);
    if SchemaRenames(options).Some? {
      RenameStable(IncludeOnly(st.headers, includeOnly), SchemaRenames(options).value);
    }
  }

  /** A narrowing `toCSV` call persists: a later call without `includeOnly` keeps the narrowed props. */
  lemma NarrowingPersists(st: State, includeOnly: Option<seq<string>>, first: Value, second: Value)
    ensures var s1 := ToCsv(st, includeOnly, first).state;
            ToCsv(s1, None, second).state.props == IncludeOnly(st.props, includeOnly)
  {
  }

  /** A later narrowing starts from the earlier one: the effect is the intersection, in either order. */
  lemma NarrowingAccumulates(st: State, a: Option<seq<string>>, b: Option<seq<string>>, d1: Value, d2: Value)
    ensures ToCsv(ToCsv(st, a, d1).state, b, d2).state.props
         == ToCsv(ToCsv(st, b, d1).state, a, d2).state.props
    ensures ToCsv(ToCsv(st, a, d1).state, a, d2).state.props == IncludeOnly(st.props, a)
  {
    IncludeOnlyCommutes(st.props, a, b);
    IncludeOnlyIdempotent(st.props, a);
  }

  /**
   `toCSV` gives one field per stored prop, in order: when no rendered value
   contains `;`, splitting the line recovers `prop_to_csv` of each lookup.
   */
  lemma ToCsvFields(st: State, includeOnly: Option<seq<string>>, doc: Value)
    requires var props := IncludeOnly(st.props, includeOnly);
             |props| > 0 && forall i :: 0 <= i < |props| ==> Delimiter !in PropToCsv(Get(doc, props[i]))
    ensures var r := ToCsv(st, includeOnly, doc);
            var fields := Split(r.line[..|r.line| - 1], Delimiter);
            |fields| == |r.state.props| &&
            forall i :: 0 <= i < |fields| ==> fields[i] == PropToCsv(Get(doc, r.state.props[i]))
  {
    var props := IncludeOnly(st.props, includeOnly);
    RowRoundTrip(Lookups(doc, props));
  }

  /** A prop whose lookup is missing (a missing leaf or intermediate) renders as an empty field. */
  lemma MissingFieldBlank(st: State, includeOnly: Option<seq<string>>, doc: Value, i: nat)
    requires var props := IncludeOnly(st.props, includeOnly);
             i < |props| && Get(doc, props[i]) == Undefined
    ensures Rendered(Lookups(doc, IncludeOnly(st.props, includeOnly)))[i] == ""
  {
  }

  /** Header calls never touch the prop list, and row calls never touch the header list. */
  lemma ListsIndependent(st: State, options: Option<PluginOptions>, hInclude: Option<seq<string>>,
                         extra: Option<Renames>, rInclude: Option<seq<string>>, doc: Value)
    ensures var afterHeader := CsvHeader(st, options, hInclude, extra).state;
            var afterRow := ToCsv(st, rInclude, doc).state;
            ToCsv(afterHeader, rInclude, doc).state == State(afterRow.props, afterHeader.headers)
    ensures CsvHeader(ToCsv(st, rInclude, doc).state, options, hInclude, extra).state.headers
         == CsvHeader(st, options, hInclude, extra).state.headers
  {
  }

  // ---------------------------------------------------------------------------
  // Header call that keeps column names (corrected behaviour)
  // ---------------------------------------------------------------------------

  /**
   `csv_header` with renames applied to the rendered line only: the stored
   header list keeps column names, so later include lists match column names
   and renames are never applied twice.
   */
  function CsvHeaderFixed(st: State, options: Option<PluginOptions>, includeOnly: Option<seq<string>>,
                          extra: Option<Renames>): (r: Reply)
    ensures r.state.props == st.props
    ensures r.state.headers == IncludeOnly(st.headers, includeOnly)
    ensures forall h :: h in r.state.headers ==> h in st.headers
    ensures r.line == CsvHeader(st, options, includeOnly, extra).line
  {
    var narrowed := IncludeOnly(st.headers, includeOnly);
    Reply(State(st.props, narrowed), HeaderRow(DisplayNames(narrowed, options, extra)))
  }

  /**
   From a state whose two lists agree (as after `Install`), a header call and a
   row call with the same include list leave them agreeing, and the header line
   names exactly one column per row field.
   */
  lemma FixedHeaderAligned(st: State, options: Option<PluginOptions>, includeOnly: Option<seq<string>>,
                           extra: Option<Renames>, doc: Value)
    requires st.headers == st.props
    ensures var h := CsvHeaderFixed(st, options, includeOnly, extra);
            var r := ToCsv(h.state, includeOnly, doc);
            && r.state.headers == r.state.props
            && |DisplayNames(h.state.headers, options, extra)| == |Lookups(doc, r.state.props)|
  {
  }

  /** Repeating a header call with the same arguments repeats its line, whatever the rename maps. */
  lemma FixedHeaderStable(st: State, options: Option<PluginOptions>, includeOnly: Option<seq<string>>,
                          extra: Option<Renames>)
    ensures var first := CsvHeaderFixed(st, options, includeOnly, extra);
            CsvHeaderFixed(first.state, options, includeOnly, extra).line == first.line
  {
    IncludeOnlyIdempotent(st.headers, includeOnly);
  }
}

=== FILE: row.dfy ===
/**
 Row rendering (`array_to_row` and `prop_to_csv` in index.js): every value is
 passed through JavaScript's `String()`, blanked when that gives `''` or
 `'undefined'`, and the fields are joined with `;` and ended with one `\n`.
 Nothing is quoted or escaped.
 */
module Row {
  import opened Seqs
  import opened Text
  import opened Json

  const Delimiter: char := ';'
  const Newline: char := '\n'

  /** JavaScript's `String(value)` on the leaves of a document snapshot. */
  function Str(v: Value): (r: string)
    ensures r == "undefined" <==> v == Undefined || v == Text("undefined")
    ensures r == "" <==> v == Text("")
    ensures v.Text? ==> r == v.s
  {
    match v
    case Undefined => "undefined"
    case Null => "null"
    case Text(s) => s
    case Obj(_) => "[object Object]"
  }

  /** `prop_to_csv`: the value's text, or `''` when that text is empty or `'undefined'`. */
  function PropToCsv(v: Value): (r: string)
    ensures r == "" <==> Str(v) == "" || Str(v) == "undefined"
    ensures r != "" ==> r == Str(v)
    ensures r != "undefined"
  {
    var val := Str(v);
    if val == "undefined" || |val| < 1 then "" else val
  }

  /** The rendered fields of a row, one per value. */
  function Rendered(vals: seq<Value>): seq<string> {
    MapSeq(vals, PropToCsv)
  }

  /** `array_to_row`: the rendered fields joined by `;`, then a single `\n`. */
  function ArrayToRow(vals: seq<Value>): (line: string)
    ensures |line| >= 1 && line[|line| - 1] == Newline
  {
    Join(Rendered(vals), Delimiter) + [Newline]
  }

  /** A header string as a snapshot leaf (a constructor is not a function value). */
  function TextOf(h: string): Value {
    Text(h)
  }

  /** The header line: the same renderer applied to the header strings. */
  function HeaderRow(headers: seq<string>): string {
    ArrayToRow(MapSeq(headers, TextOf))
  }

  /**
   Undefined values and the literal text `undefined` both blank out, `null`
   renders as `null`, and any other text passes through unchanged, unquoted.
   */
  lemma PropToCsvLeaves(s: string)
    ensures PropToCsv(Undefined) == ""
    ensures PropToCsv(Null) == "null"
    ensures PropToCsv(Text("undefined")) == "" && PropToCsv(Text("")) == ""
    ensures Plain(s) ==> PropToCsv(Text(s)) == s
  {
  }

  /**
   When no rendered field contains `;`, cutting the line (less its final `\n`)
   at every `;` gives back exactly the rendered fields.
   */
  lemma RowRoundTrip(vals: seq<Value>)
    requires |vals| > 0
    requires forall i :: 0 <= i < |vals| ==> Delimiter !in PropToCsv(vals[i])
    ensures var line := ArrayToRow(vals); Split(line[..|line| - 1], Delimiter) == Rendered(vals)
  {
    SplitJoin(Rendered(vals), Delimiter);
  }

  /** When no rendered field contains `\n`, the terminator is the only newline in the line. */
  lemma RowSingleNewline(vals: seq<Value>)
    requires forall i :: 0 <= i < |vals| ==> Newline !in PropToCsv(vals[i])
    ensures var line := ArrayToRow(vals); Newline !in line[..|line| - 1]
  {
    JoinAvoids(Rendered(vals), Delimiter, Newline);
  }

  /** Text that `prop_to_csv` passes through unchanged. */
  predicate Plain(s: string) {
    s != "" && s != "undefined"
  }

  /** No fields and one blank field both render as a bare `\n`. */
  lemma EmptyRowAmbiguous()
    ensures ArrayToRow([]) == ArrayToRow([Undefined]) == "\n"
  {
    assert Rendered([Undefined]) == [""];
  }

  /** Without quoting, a field holding `;` renders like two fields. */
  lemma DelimiterInFieldAmbiguous(x: string, y: string)
    requires Plain(x) && Plain(y)
    ensures ArrayToRow([Text(x + ";" + y)]) == ArrayToRow([Text(x), Text(y)])
  {
    var joined := x + ";" + y;
    assert joined[|x|] == ';' && ';' !in "undefined";
    assert Plain(joined);
    assert Rendered([Text(joined)]) == [joined];
    assert Rendered([Text(x), Text(y)]) == [x, y];
    assert [x, y][1..] == [y];
    assert Join([x, y], Delimiter) == x + [Delimiter] + y == joined;
  }
}

=== FILE: scenarios.dfy ===
/**
 Concrete runs of the plugin on small schemas: the export of a plain schema,
 header renaming, and the two call sequences in which the stored, renamed
 header list drifts away from the prop list.
 */
module Scenarios {
  import opened Wrappers
  import opened Seqs
  import opened Text
  import opened Json
  import opened Discovery
  import opened Row
  import opened Plugin

  const PersonPaths: seq<SchemaPath> := [
    SchemaPath("name", None, None, "String"),
    SchemaPath("age", None, None, "Number"),
    SchemaPath("_id", None, None, "ObjectID")
  ]

  const Ann: Value := Obj(map["name" := Text("Ann"), "age" := Text("30"), "_id" := Text("x1")])

  /** A plain schema exports its fields in order with `_id` last, and renders header and row. */
  const Columns: seq<string> := ["name", "age", "_id"]

  /** The plugin state right after installing on the person schema (see `PersonColumns`). */
  const Start: State := State(Columns, Columns)

  lemma PersonKept()
    ensures Kept(PersonPaths) == PersonPaths[..2]
  {
    var ps := PersonPaths;
    var scalars := ps[..2];
    assert ps[1..][1..] == ps[2..] && ps[2..][1..] == [];
    assert Where(ps[2..], NotId) == [];
    assert Where(ps[1..], NotId) == [ps[1]];
    assert scalars[1..][1..] == [];
    assert Where(scalars, NodeAllows) == scalars;
    assert Where(scalars, OptionsAllow) == scalars;
    assert Where(scalars, Scalar) == scalars;
  }

  /** The column list of the person schema: its two fields in order, `_id` moved last. */
  lemma PersonColumns()
    ensures FindProps(PersonPaths) == Columns
    ensures Install(PersonPaths) == Start
  {
    PersonKept();
    assert Names(PersonPaths[..2]) == ["name", "age"];
  }

  lemma AnnLookups()
    ensures Lookups(Ann, Columns) == [Text("Ann"), Text("30"), Text("x1")]
    ensures Lookups(Ann, ["name"]) == [Text("Ann")]
  {
    GetPlain(Ann, "name");
    GetPlain(Ann, "age");
    GetPlain(Ann, "_id");
  }

  lemma AnnRows()
    ensures ArrayToRow(Lookups(Ann, Columns)) == "Ann;30;x1\n"
    ensures ArrayToRow(Lookups(Ann, ["name"])) == "Ann\n"
  {
    AnnLookups();
    RowThree("Ann", "30", "x1");
    assert Rendered([Text("Ann")]) == ["Ann"];
  }

  lemma ColumnsHeader()
    ensures HeaderRow(Columns) == "name;age;_id\n"
  {
    HeaderThree("name", "age", "_id");
  }

  lemma HeaderThree(a: string, b: string, c: string)
    requires Plain(a) && Plain(b) && Plain(c)
    ensures HeaderRow([a, b, c]) == a + ";" + b + ";" + c + "\n"
  {
    assert MapSeq([a, b, c], TextOf) == [Text(a), Text(b), Text(c)];
    RowThree(a, b, c);
  }

  lemma RowThree(a: string, b: string, c: string)
    requires Plain(a) && Plain(b) && Plain(c)
    ensures ArrayToRow([Text(a), Text(b), Text(c)]) == a + ";" + b + ";" + c + "\n"
  {
    assert Rendered([Text(a), Text(b), Text(c)]) == [a, b, c];
    assert [a, b, c][1..] == [b, c] && [b, c][1..] == [c];
    assert Join([b, c], Delimiter) == b + ";" + c;
    assert Join([a, b, c], Delimiter) == a + ";" + (b + ";" + c);
  }

  lemma RenameThree(a: string, b: string, c: string, m: Renames)
    ensures Rename([a, b, c], m) == [Renamed(a, m), Renamed(b, m), Renamed(c, m)]
  {
  }

  /** A plain export renders the header `name;age;_id`. */
  lemma PlainHeader()
    ensures CsvHeader(Start, None, None, None).line == "name;age;_id\n"
  {
    ColumnsHeader();
  }

  /** A plain export renders the row `Ann;30;x1`. */
  lemma PlainRow()
    ensures ToCsv(Start, None, Ann).line == "Ann;30;x1\n"
  {
    assert ToCsv(Start, None, Ann).line == ArrayToRow(Lookups(Ann, Columns));
    AnnRows();
  }

  const AgeRename: Option<PluginOptions> := Some(PluginOptions(Some(map["age" := "Age (years)"])))
  const NameRename: Renames := map["name" := "Full Name"]

  const Shown: seq<string> := ["Full Name", "Age (years)", "_id"]

  lemma ShownNames()
    ensures DisplayNames(Columns, AgeRename, Some(NameRename)) == Shown
  {
    var ages := map["age" := "Age (years)"];
    RenameThree("name", "age", "_id", ages);
    RenameThree("name", "Age (years)", "_id", NameRename);
  }

  lemma ShownHeader()
    ensures HeaderRow(Shown) == "Full Name;Age (years);_id\n"
  {
    HeaderThree("Full Name", "Age (years)", "_id");
  }

  /** A schema-level and a call-level rename on different columns both show in the header. */
  lemma RenamedHeader()
    ensures CsvHeader(Start, AgeRename, None, Some(NameRename)).line
         == "Full Name;Age (years);_id\n"
  {
    assert CsvHeader(Start, AgeRename, None, Some(NameRename)).state.headers
        == DisplayNames(Columns, AgeRename, Some(NameRename));
    ShownNames();
    ShownHeader();
  }

  /** Renaming the header leaves the rows alone. */
  lemma RenamedRow()
    ensures ToCsv(CsvHeader(Start, AgeRename, None, Some(NameRename)).state, None, Ann).line
         == "Ann;30;x1\n"
  {
    var st := CsvHeader(Start, AgeRename, None, Some(NameRename)).state;
    assert st.props == Columns;
    assert ToCsv(st, None, Ann).line == ArrayToRow(Lookups(Ann, Columns));
    AnnRows();
  }

  const NameOnly: Option<seq<string>> := Some(["name"])
  const FullName: Option<PluginOptions> := Some(PluginOptions(Some(NameRename)))

  lemma NameOnlyNarrows()
    ensures IncludeOnly(Columns, NameOnly) == ["name"]
    ensures IncludeOnly(["name"], NameOnly) == ["name"]
    ensures IncludeOnly(["Full Name"], NameOnly) == []
  {
    assert Columns[1..][1..] == Columns[2..];
    assert Columns[2..][1..] == [];
  }

  lemma FullNameHeader()
    ensures HeaderRow(["Full Name"]) == "Full Name\n"
    ensures Rename(["name"], NameRename) == ["Full Name"]
  {
    assert Rendered(MapSeq(["Full Name"], TextOf)) == ["Full Name"];
  }

  /** The state after one export with include list `["name"]` and the schema-level rename. */
  lemma FirstExport()
    ensures var h1 := CsvHeader(Start, FullName, NameOnly, None);
            h1.line == "Full Name\n" && h1.state == State(Columns, ["Full Name"])
            && ToCsv(h1.state, NameOnly, Ann) == Reply(State(["name"], ["Full Name"]), "Ann\n")
  {
    NameOnlyNarrows();
    FullNameHeader();
    AnnRows();
  }

  /**
   A second export with the same include list, as written: the stored header is
   `Full Name`, which the include list no longer matches, so the header line is
   empty while the row still carries its field.
   */
  lemma RenamedColumnDroppedOnSecondExport()
    ensures var h2 := CsvHeader(State(["name"], ["Full Name"]), FullName, NameOnly, None);
            var r2 := ToCsv(h2.state, NameOnly, Ann);
            && h2.line == "\n" && r2.line == "Ann\n"
            && |h2.state.headers| == 0 && |r2.state.props| == 1
  {
    NameOnlyNarrows();
    AnnRows();
  }

  /** The corrected header call on the same two exports names the column both times. */
  lemma RenamedColumnKeptWhenFixed()
    ensures var h1 := CsvHeaderFixed(Start, FullName, NameOnly, None);
            var r1 := ToCsv(h1.state, NameOnly, Ann);
            var h2 := CsvHeaderFixed(r1.state, FullName, NameOnly, None);
            && h1.line == "Full Name\n" && r1.state == State(["name"], ["name"])
            && h2.line == "Full Name\n"
  {
    NameOnlyNarrows();
    FullNameHeader();
  }

  const Chained: Option<PluginOptions> := Some(PluginOptions(Some(map["name" := "Name", "Name" := "Full Name"])))

  const Once: seq<string> := ["Name", "age", "_id"]
  const Twice: seq<string> := ["Full Name", "age", "_id"]

  lemma ChainNames()
    ensures DisplayNames(Columns, Chained, None) == Once
    ensures DisplayNames(Once, Chained, None) == Twice
  {
    var m := map["name" := "Name", "Name" := "Full Name"];
    RenameThree("name", "age", "_id", m);
    RenameThree("Name", "age", "_id", m);
  }

  lemma ChainLines()
    ensures HeaderRow(Once) == "Name;age;_id\n"
    ensures HeaderRow(Twice) == "Full Name;age;_id\n"
  {
    HeaderThree("Name", "age", "_id");
    HeaderThree("Full Name", "age", "_id");
  }

  /** As written, a chained schema-level rename advances one step on every header call. */
  lemma ChainedRenameDrifts()
    ensures var h1 := CsvHeader(Start, Chained, None, None);
            var h2 := CsvHeader(h1.state, Chained, None, None);
            h1.line == "Name;age;_id\n" && h2.line == "Full Name;age;_id\n"
  {
    ChainNames();
    ChainLines();
    var h1 := CsvHeader(Start, Chained, None, None);
    assert h1.state.headers == DisplayNames(Columns, Chained, None);
    assert CsvHeader(h1.state, Chained, None, None).state.headers == DisplayNames(Once, Chained, None);
  }
}

=== FILE: seqs.dfy ===
/**
 Order-preserving list operations shared by column discovery and include-only
 filtering: the subsequence relation, `Where` (JavaScript's `Array.prototype.filter`)
 and `MapSeq` (`Array.prototype.map`).
 */
module Seqs {

  /** `a` can be obtained from `b` by deleting elements, without reordering. */
  predicate SubseqOf<T(==)>(a: seq<T>, b: seq<T>)
    decreases |b|
  {
    |a| == 0 ||
    (|b| > 0 && ((a[0] == b[0] && SubseqOf(a[1..], b[1..])) || SubseqOf(a, b[1..])))
  }

  /** No element occurs twice. */
  predicate Distinct<T(==)>(s: seq<T>) {
    forall i, j :: 0 <= i < j < |s| ==> s[i] != s[j]
  }

  /** The elements of `xs` satisfying `keep`, in their original order, each as often as in `xs`. */
  function Where<T(==,!new)>(xs: seq<T>, keep: T --> bool): (r: seq<T>)
    requires forall x :: x in xs ==> keep.requires(x)
    ensures SubseqOf(r, xs)
    ensures forall x :: x in r <==> x in xs && keep(x)
  {
    if |xs| == 0 then []
    else
      var rest := Where(xs[1..], keep);
      assert xs == [xs[0]] + xs[1..];
      if keep(xs[0]) then
        assert ([xs[0]] + rest)[1..] == rest;
        [xs[0]] + rest
      else
        rest
  }

  /** `Where` keeps every kept element as often as it occurs, and drops the others entirely. */
  lemma {:induction false} WhereCounts<T(!new)>(xs: seq<T>, keep: T --> bool)
    requires forall x :: x in xs ==> keep.requires(x)
    ensures forall x :: x in xs ==> multiset(Where(xs, keep))[x] == if keep(x) then multiset(xs)[x] else 0
    decreases |xs|
  {
    if |xs| > 0 {
      WhereCounts(xs[1..], keep);
      assert xs == [xs[0]] + xs[1..];
    }
  }

  /** `f` applied to every element, in order. */
  function MapSeq<A, B>(xs: seq<A>, f: A -> B): (r: seq<B>)
    ensures |r| == |xs|
    ensures forall i :: 0 <= i < |xs| ==> r[i] == f(xs[i])
  {
    seq(|xs|, i requires 0 <= i < |xs| => f(xs[i]))
  }

  lemma {:induction false} SubseqTrans<T>(a: seq<T>, b: seq<T>, c: seq<T>)
    requires SubseqOf(a, b) && SubseqOf(b, c)
    ensures SubseqOf(a, c)
    decreases |c|
  {
    if |a| > 0 {
      if SubseqOf(b, c[1..]) {
        SubseqTrans(a, b, c[1..]);
      } else if a[0] == b[0] && SubseqOf(a[1..], b[1..]) {
        SubseqTrans(a[1..], b[1..], c[1..]);
      } else {
        SubseqTrans(a, b[1..], c[1..]);
      }
    }
  }

  lemma {:induction false} SubseqMembers<T>(a: seq<T>, b: seq<T>)
    requires SubseqOf(a, b)
    ensures forall x :: x in a ==> x in b
    decreases |b|
  {
    if |a| > 0 {
      if a[0] == b[0] && SubseqOf(a[1..], b[1..]) {
        SubseqMembers(a[1..], b[1..]);
        assert a == [a[0]] + a[1..];
      } else {
        SubseqMembers(a, b[1..]);
      }
    }
  }

  /** A subsequence of a duplicate-free list is duplicate-free. */
  lemma {:induction false} SubseqDistinct<T>(a: seq<T>, b: seq<T>)
    requires SubseqOf(a, b) && Distinct(b)
    ensures Distinct(a)
    decreases |b|
  {
    if |a| > 0 {
      assert Distinct(b[1..]) by {
        forall i, j | 0 <= i < j < |b| - 1 ensures b[1..][i] != b[1..][j] {
          assert b[1..][i] == b[i + 1] && b[1..][j] == b[j + 1];
        }
      }
      if a[0] == b[0] && SubseqOf(a[1..], b[1..]) {
        SubseqDistinct(a[1..], b[1..]);
        SubseqMembers(a[1..], b[1..]);
        assert b[0] !in b[1..];
        forall i, j | 0 <= i < j < |a| ensures a[i] != a[j] {
          if i == 0 {
            assert a[j] == a[1..][j - 1];
          } else {
            assert a[i] == a[1..][i - 1] && a[j] == a[1..][j - 1];
          }
        }
      } else {
        SubseqDistinct(a, b[1..]);
      }
    }
  }

  /** Mapping both sides keeps the subsequence relation. */
  lemma {:induction false} SubseqMap<A, B>(a: seq<A>, b: seq<A>, f: A -> B)
    requires SubseqOf(a, b)
    ensures SubseqOf(MapSeq(a, f), MapSeq(b, f))
    decreases |b|
  {
    if |a| > 0 {
      if a[0] == b[0] && SubseqOf(a[1..], b[1..]) {
        SubseqMap(a[1..], b[1..], f);
        assert MapSeq(a, f)[1..] == MapSeq(a[1..], f);
      } else {
        SubseqMap(a, b[1..], f);
      }
      assert MapSeq(b, f)[1..] == MapSeq(b[1..], f);
    }
  }
}

=== FILE: text.dfy ===
/**
 JavaScript's `Array.prototype.join` and `String.prototype.split` with a
 one-character separator, and the two round trips between them.
 */
module Text {

  /** `parts` with `sep` between neighbours (`[].join(sep)` is the empty string). */
  function Join(parts: seq<string>, sep: char): (r: string)
    ensures |parts| == 0 ==> r == ""
    ensures |parts| == 1 ==> r == parts[0]
    ensures |parts| > 1 ==> parts[0] + [sep] <= r
    decreases |parts|
  {
    if |parts| == 0 then ""
    else if |parts| == 1 then parts[0]
    else parts[0] + [sep] + Join(parts[1..], sep)
  }

  /** The maximal `sep`-free pieces of `s`; like `"".split(sep)`, never the empty list. */
  function Split(s: string, sep: char): (parts: seq<string>)
    ensures |parts| >= 1
    ensures forall i :: 0 <= i < |parts| ==> sep !in parts[i]
    ensures |s| == 0 ==> parts == [""]
    decreases |s|
  {
    if |s| == 0 then [""]
    else
      var rest := Split(s[1..], sep);
      if s[0] == sep then [""] + rest
      else
        assert forall i :: 1 <= i < |rest| ==> ([[s[0]] + rest[0]] + rest[1..])[i] == rest[i];
        [[s[0]] + rest[0]] + rest[1..]
  }

  lemma {:induction false} JoinConsHead(c: char, parts: seq<string>, sep: char)
    requires |parts| >= 1
    ensures Join([[c] + parts[0]] + parts[1..], sep) == [c] + Join(parts, sep)
  {
    var ps := [[c] + parts[0]] + parts[1..];
    assert ps[1..] == parts[1..];
  }

  /** Splitting and re-joining gives back the original text, whatever it contains. */
  lemma {:induction false} JoinSplit(s: string, sep: char)
    ensures Join(Split(s, sep), sep) == s
    decreases |s|
  {
    if |s| > 0 {
      var rest := Split(s[1..], sep);
      JoinSplit(s[1..], sep);
      if s[0] == sep {
        assert ([""] + rest)[1..] == rest;
        assert s == [s[0]] + s[1..];
      } else {
        JoinConsHead(s[0], rest, sep);
        assert s == [s[0]] + s[1..];
      }
    }
  }

  lemma {:induction false} SplitNoSep(a: string, sep: char)
    requires sep !in a
    ensures Split(a, sep) == [a]
    decreases |a|
  {
    if |a| > 0 {
      SplitNoSep(a[1..], sep);
      assert a == [a[0]] + a[1..];
    }
  }

  lemma {:induction false} SplitAtSep(a: string, b: string, sep: char)
    requires sep !in a
    ensures Split(a + [sep] + b, sep) == [a] + Split(b, sep)
    decreases |a|
  {
    var s := a + [sep] + b;
    if |a| == 0 {
      assert s[1..] == b;
    } else {
      assert s[1..] == a[1..] + [sep] + b;
      SplitAtSep(a[1..], b, sep);
      assert a == [a[0]] + a[1..];
    }
  }

  /**
   Joining and splitting again gives back the parts, provided there is at least
   one part and no part contains the separator.
   */
  lemma {:induction false} SplitJoin(parts: seq<string>, sep: char)
    requires |parts| >= 1
    requires forall i :: 0 <= i < |parts| ==> sep !in parts[i]
    ensures Split(Join(parts, sep), sep) == parts
    decreases |parts|
  {
    if |parts| == 1 {
      SplitNoSep(parts[0], sep);
    } else {
      SplitJoin(parts[1..], sep);
      SplitAtSep(parts[0], Join(parts[1..], sep), sep);
      assert parts == [parts[0]] + parts[1..];
    }
  }

  /** A character other than the separator occurs in the joined text only if some part holds it. */
  lemma {:induction false} JoinAvoids(parts: seq<string>, sep: char, c: char)
    requires c != sep
    requires forall i :: 0 <= i < |parts| ==> c !in parts[i]
    ensures c !in Join(parts, sep)
    decreases |parts|
  {
    if |parts| > 1 {
      JoinAvoids(parts[1..], sep, c);
    }
  }
}

=== FILE: wrappers.dfy ===
/** Optional values: JavaScript's `undefined` (or a falsy option) against a supplied value. */
module Wrappers {

  datatype Option<+T> = None | Some(value: T)
}
